=== FILE: README.md ===
# Driver-monitoring core in Dafny

A functional model of the decision logic of a browser driver-monitoring
dashboard, with the properties of that logic proved. The model covers five
parts:

- **The per-frame monitor** (`useDriverAI`). A consecutive-frame counter gives
  hysteresis on the eye-aperture ratio (EAR below 0.25 for 15 frames means
  drowsy). A head-velocity test above 0.5 marks rage on a single frame. Status
  resolves RAGE over DROWSY over NORMAL. The event log is newest-first, holds
  at most 50 entries, and drops a new entry of the newest entry's type within
  3000 ms of it. The module also models the monitoring toggle and the log
  clear.
- **The CSV export of the event log** (`LogTable`). A header line, one
  comma-joined line per entry, newline-joined, with no quoting.
- **The simulated attention score** (`useDriverSimulation`). Each tick the
  score drifts randomly, is clamped to [0, 100] and may then drop by 15. A fall
  through 30 or 50 raises an alert, and alerts are kept newest-first, at most
  five.
- **The score bands of the dashboard card** (`Dashboard`). Text, colour, ring
  colour and icon are all chosen at 70 and 40.
- **The session timer** (`SessionInfo`). It turns milliseconds into
  `HH:MM:SS` and resets to `00:00:00` when there is no start time.

Every operation is a pure function over immutable datatypes, so exporting
the log cannot modify it. The model's inputs take the place of the parts
that are not modelled:

- floating-point landmark geometry (EAR, head velocity, frame rate);
- the clock;
- `crypto.randomUUID` and `Math.random`.

Files:

- `options.dfy`: the `Option` type.
- `bounded.dfy`: the `[x, ...list].slice(0, cap)` idiom shared by the event
  log and the alert list.
- `text.dfy`: JavaScript's `join`, `split`, integer `toString` and `padStart`,
  plus a reader for digit strings.
- `driver_ai.dfy`, `log_export.dfy`, `driver_simulation.dfy`, `dashboard.dfy`
  and `session_info.dfy`: one module per source file.

## Model

| member | source | states |
|---|---|---|
| `Bounded.PrependCapped` | src/hooks/useDriverAI.ts:185 | The new item is first, followed by the old items in their order, and the length is the smaller of the old length plus one and the cap. |
| `Bounded.PrependCappedKeepsBound` | src/hooks/useDriverAI.ts:185 | A list within the cap stays within the cap after a prepend. |
| `Bounded.PrependCappedEvictsOldest` | src/hooks/useDriverSimulation.ts:22 | Prepending to a full list drops exactly its last (oldest) element. |
| `Text.PadStartIsFill` | src/components/SessionInfo.tsx:30 | `padStart` adds a run of fill characters in front of the string, up to the width, and leaves a string that is long enough unchanged. |
| `DriverAI.InitialMonitor` | src/hooks/useDriverAI.ts:30-56 | On mount: monitoring off, counter 0, no nose position, a NORMAL driver state that is neither drowsy nor enraged with zero EAR, fps and head velocity, and the restored log. |
| `DriverAI.ResolveStatus` | src/hooks/useDriverAI.ts:155-157 | Status is RAGE exactly when the frame shows rage, DROWSY exactly when drowsy without rage, and NORMAL exactly when neither. |
| `DriverAI.IsDuplicate` | src/hooks/useDriverAI.ts:175-177 | Only an entry of the same type at the head of the log can suppress a new one. It suppresses it exactly while the frame time is less than 3000 ms after that entry. |
| `DriverAI.Record` | src/hooks/useDriverAI.ts:173-186 | A duplicate (same type as the newest entry, strictly less than 3000 ms after it) leaves the log unchanged. Otherwise the new entry comes first, followed by the previous entries in order, cut to 50. With a fresh id the log is unchanged exactly when the entry is a duplicate, and the bound of 50 is kept. |
| `DriverAI.Process` | src/hooks/useDriverAI.ts:129-187 | A closed gate or a faceless frame changes nothing. Otherwise: the counter rises on low EAR and resets otherwise; drowsy exactly when the counter is 15 or more; velocity is 0 on the first frame without a previous nose position; rage exactly when velocity is above 0.5; the status is resolved; the nose position is stored; the log is recorded as DROWSINESS when drowsy, as RAGE when only enraged, and left alone otherwise. |
| `DriverAI.OnFrame` | src/hooks/useDriverAI.ts:129-131 | The intended handler, gated on the current monitoring flag. Nothing changes while monitoring is off. While it is on, a face frame stores its nose position and EAR, and advances the counter on low EAR or resets it. |
| `DriverAI.OnFrameAsWritten` | src/hooks/useDriverAI.ts:129-188 | The handler as written reads the flag it was memoised with, so it returns every state unchanged. |
| `DriverAI.StaleGateIgnoresFrames` | src/hooks/useDriverAI.ts:129-188 | After monitoring is switched on, a low-EAR frame advances the counter in the intended handler and is ignored by the handler as written. |
| `DriverAI.ToggleMonitoring` | src/hooks/useDriverAI.ts:69-80 | Toggling flips monitoring, zeroes the counter and clears drowsy, rage and status to NORMAL. EAR, fps, velocity, the nose position and the log survive. |
| `DriverAI.ClearLogs` | src/hooks/useDriverAI.ts:64-67 | Clearing empties the log and changes nothing else. |
| `DriverAI.LowEarRunCounts` | src/hooks/useDriverAI.ts:143-149 | A run of low-EAR frames adds its length to the counter, and afterwards the driver is drowsy exactly when the total reaches 15. |
| `DriverAI.FifteenthLowFrameIsDrowsy` | src/hooks/useDriverAI.ts:143-149 | From a reset counter, 14 low-EAR frames leave the driver awake and the 15th makes them drowsy. |
| `DriverAI.OpenEyesReset` | src/hooks/useDriverAI.ts:145-149 | One frame with EAR at or above 0.25 resets the counter and clears drowsiness. |
| `DriverAI.ToggleOnRestartsHysteresis` | src/hooks/useDriverAI.ts:69-80 | After toggling on, the k-th consecutive low-EAR frame is drowsy exactly when k >= 15, whatever had been counted before. |
| `DriverAI.PausedRunChangesNothing` | src/hooks/useDriverAI.ts:130 | While monitoring is off, no sequence of frames changes any part of the state. |
| `DriverAI.RunKeepsLogBound` | src/hooks/useDriverAI.ts:185 | The log never exceeds 50 entries over any sequence of frames. |
| `DriverAI.LoggedTypeFollowsDrowsiness` | src/hooks/useDriverAI.ts:155-171 | On a frame that is both drowsy and enraged, the status shown is RAGE while the entry logged is DROWSINESS. |
| `DriverAI.OnlyNewestEntryIsCompared` | src/hooks/useDriverAI.ts:175-178 | When the newest entry has the other type, the new entry is always added, however recent an older entry of the same type is. |
| `DriverAI.ClearedLogAcceptsNext` | src/hooks/useDriverAI.ts:64-67 | After a clear, the next alerting frame's entry is always recorded. |
| `DriverAI.FullLogDropsOldest` | src/hooks/useDriverAI.ts:185 | A new entry on a full log of 50 drops exactly the oldest entry. |
| `DriverAI.RecordKeepsLogWellFormed` | src/hooks/useDriverAI.ts:180-185 | Recording with a fresh id and a non-decreasing clock keeps the log within 50 entries, with distinct ids, newest first. |
| `LogExport.Table` | src/components/LogTable.tsx:12-13 | The table is the header row, then each entry's id, timestamp and type in log order. |
| `LogExport.Row` | src/components/LogTable.tsx:13-14 | A row is the id, the ISO timestamp and the type name, separated by commas. |
| `LogExport.CsvLines` | src/components/LogTable.tsx:12-14 | There is one line per table row: the header line first, then entry i on line i + 1. |
| `LogExport.ToCsv` | src/components/LogTable.tsx:14 | The export starts with `ID,Timestamp,Type`, and an empty log exports only that. |
| `LogExport.HeaderLine` | src/components/LogTable.tsx:12 | The header line is `ID,Timestamp,Type` and holds no newline. |
| `LogExport.CsvLineStructure` | src/components/LogTable.tsx:14 | Without newlines inside fields, splitting the export on newlines gives exactly the header line and one line per entry. |
| `LogExport.CsvFirstLineIsHeader` | src/components/LogTable.tsx:12-14 | Whatever the fields hold, the first line of the export is `ID,Timestamp,Type`. |
| `LogExport.HeaderRoundTrip` | src/components/LogTable.tsx:12 | The header line splits back into its three names. |
| `LogExport.RowRoundTrip` | src/components/LogTable.tsx:13-14 | A row without commas in its id or timestamp splits back into the entry's three fields. |
| `LogExport.CsvRoundTrip` | src/components/LogTable.tsx:12-14 | When no id or timestamp contains a comma or a newline, splitting the export on newlines and then on commas yields the header and every entry's fields, in order. |
| `LogExport.CommaInIdBreaksRow` | src/components/LogTable.tsx:13-14 | Nothing is quoted, so an id that holds a comma makes its row read back as more than three fields. |
| `LogExport.CsvSeparatorCounts` | src/components/LogTable.tsx:14 | With clean fields, the export holds exactly one newline per entry (no trailing newline), and every line holds exactly two commas. |
| `DriverSimulation.InitialSimulation` | src/hooks/useDriverSimulation.ts:11-13 | The simulation starts at score 100, with no alerts and monitoring on. |
| `DriverSimulation.AddAlert` | src/hooks/useDriverSimulation.ts:15-23 | The new alert is first, the survivors keep their order, and at most five are kept. |
| `DriverSimulation.SixthAlertEvictsOldest` | src/hooks/useDriverSimulation.ts:22 | A sixth alert evicts exactly the oldest one. |
| `DriverSimulation.Clamp` | src/hooks/useDriverSimulation.ts:32 | The result lies in [0, 100]. It is the input when the input is in range, 0 below the range and 100 above it. |
| `DriverSimulation.NextScore` | src/hooks/useDriverSimulation.ts:31-37 | The new score is the drifted score clamped into [0, 100], minus 15 when the second draw is above 0.95. It therefore lies in [-15, 100]: at least 0 without a drop, and at most 85 with one. |
| `DriverSimulation.NoDropMovesAtMostFive` | src/hooks/useDriverSimulation.ts:31-32 | With draws in [0, 1) and no drop, a score in range moves by at most 5. |
| `DriverSimulation.CrossingAlert` | src/hooks/useDriverSimulation.ts:40-44 | A drowsiness alert fires exactly on a fall from at least 30 to below 30. A distraction alert fires exactly on a fall from at least 50 into [30, 50). A tick never raises a normal alert. |
| `DriverSimulation.AlertMessage` | src/hooks/useDriverSimulation.ts:40-44 | The drowsiness and distraction alerts carry their own messages, and each message identifies its kind. |
| `DriverSimulation.Tick` | src/hooks/useDriverSimulation.ts:25-51 | No tick runs while monitoring is off. Otherwise the score is updated, and the crossing alert, if any, is put in front of the list with the tick's id and time and the message of its kind. |
| `DriverSimulation.SetMonitoring` | src/hooks/useDriverSimulation.ts:13 | Setting the flag leaves the score and the alerts alone. |
| `DriverSimulation.InitialSatisfiesInvariant` | src/hooks/useDriverSimulation.ts:11-12 | The initial state has a score in [-15, 100] and at most five alerts. |
| `DriverSimulation.RunKeepsInvariant` | src/hooks/useDriverSimulation.ts:28-48 | Every sequence of ticks keeps the score in [-15, 100] and at most five alerts. |
| `DriverSimulation.RunAddsAtMostOneAlertPerTick` | src/hooks/useDriverSimulation.ts:40-44 | A run of n ticks adds at most n alerts. |
| `DriverSimulation.ScoreCanGoNegative` | src/hooks/useDriverSimulation.ts:32-37 | A drop right after a clamp to 0 gives -15. |
| `DriverSimulation.PausedRunChangesNothing` | src/hooks/useDriverSimulation.ts:26 | While monitoring is off, no sequence of ticks changes the simulation. |
| `Dashboard.StatusColor` | src/components/Dashboard.tsx:9-13 | The colour is green exactly from 70, yellow exactly on [40, 70), and red exactly below 40. |
| `Dashboard.StatusText` | src/components/Dashboard.tsx:15-19 | The text is Focused exactly from 70, Distracted exactly on [40, 70), and Drowsy exactly below 40. |
| `Dashboard.RingColor` | src/components/Dashboard.tsx:22 | The ring colour uses the same three bands as the status colour. |
| `Dashboard.StatusIcon` | src/components/Dashboard.tsx:44 | The icon uses the same three bands as the status text. |
| `Dashboard.PresentationsAgree` | src/components/Dashboard.tsx:21-45 | Two scores share a colour exactly when they share a ring colour, a text and an icon. |
| `Dashboard.StatusMonotone` | src/components/Dashboard.tsx:9-19 | A higher score never shows a worse status. |
| `SessionInfo.JsRem` | src/components/SessionInfo.tsx:26-27 | JavaScript's `%`: the ordinary remainder for a non-negative dividend. For a negative one it is the truncated remainder n - d*trunc(n/d), which lies in (-d, 0]. |
| `SessionInfo.ElapsedFields` | src/components/SessionInfo.tsx:25-27 | For a non-negative difference, minutes and seconds lie in [0, 59], hours are non-negative, and hours*3600 + minutes*60 + seconds is the number of whole seconds. |
| `SessionInfo.Pad2` | src/components/SessionInfo.tsx:30 | The exact `padStart(2, '0')` result: a single digit gets one leading zero, and any other number (two or more digits, or negative) is its plain decimal text. Every padded field therefore has at least two characters, and a non-negative one is a digit string that reads back as the field. |
| `SessionInfo.FormatElapsed` | src/components/SessionInfo.tsx:25-30 | For a non-negative difference, reading the displayed text back as hours, minutes and seconds gives the whole seconds elapsed. |
| `SessionInfo.FormatShape` | src/components/SessionInfo.tsx:25-31 | For a non-negative difference, the display has exactly two colons and three groups of at least two digits. From 100 hours on, the hours take three or more digits. |
| `SessionInfo.FormatGroups` | src/components/SessionInfo.tsx:25-30 | For a non-negative difference, the display is three groups: the whole hours, then the minutes of the hour and the seconds of the minute. Minutes and seconds are exactly two digits and below 60, and the hours are exactly two digits below 100 hours. |
| `SessionInfo.FirstSecondShowsZero` | src/components/SessionInfo.tsx:25-31 | Any difference within the first second displays as `00:00:00`. |
| `SessionInfo.BackwardsClockDisplay` | src/components/SessionInfo.tsx:23-31 | A clock less than a second behind the start displays `-1:-1:-1`, because `padStart` leaves negative fields as they are. |
| `SessionInfo.InitialTimer` | src/components/SessionInfo.tsx:10 | The timer starts out with the start time it is given, showing `00:00:00`. |
| `SessionInfo.SetStartTime` | src/components/SessionInfo.tsx:12-19 | Without a truthy start time (absent or 0) the display resets to `00:00:00`; with one, the old text stays until the first tick. |
| `SessionInfo.Tick` | src/components/SessionInfo.tsx:21-32 | No tick changes a timer without a start time, and no tick changes the start time. |
| `SessionInfo.TickShowsWholeSeconds` | src/components/SessionInfo.tsx:21-31 | After a tick, when the clock is not behind the start, the display of a started timer reads back as the whole seconds since the start. |
| `SessionInfo.StoppedTimerShowsZero` | src/components/SessionInfo.tsx:13-19 | Once the start time is cleared, the display shows `00:00:00` through any number of ticks. |

## Left out

- EAR, head-velocity and frame-rate arithmetic (src/hooks/useDriverAI.ts:90-127, 133-136): floating-point landmark geometry. The three values are inputs of each frame. Only the first-frame branch of the velocity code (no previous nose position gives velocity 0) is modelled.
- The `Math.round` of the frame rate and of the displayed score: rounding of floating-point values. The frame rate arrives already rounded.
- React state, refs, effects and memoisation: the state lives in one `Monitor` value, and the stale memoised gate is made explicit (see Findings).
- Restoring the log from `localStorage` with its JSON fallback, and writing it back: the restored log is an input of `InitialMonitor`.
- The `distractionStartTime` ref: it is reset on toggle but never read.
- `crypto.randomUUID`, `new Date()`, `toISOString` and `Date.parse`: identifiers and timestamps are inputs. A timestamp carries its milliseconds next to its ISO text, so the ISO text is assumed to read back exactly.
- The audio alert (`playAlertSound`) and all of src/utils/audio.ts: side effects with no bearing on state.
- The MediaPipe face mesh and the camera set-up: an external library and I/O. A frame is either `NoFace` or a `Face` with the derived values.
- The Blob, anchor and file-name part of the CSV download: DOM I/O.
- `Math.random` and `setInterval` in the simulation, and `Date.now` and `setInterval` in the timer: the draws and the clock readings of each tick are inputs, and a run is a sequence of ticks.
- Number rendering beyond safe integers: `toString` switches to exponent notation for very large numbers, which a timer never reaches. `IntToString` renders plain digits.
- Driver modes, a NO_FACE status, alert counting, a session start time and three-day retention: src/App.tsx:22-25 reads `driverMode`, `setDriverMode`, `sessionStartTime` and `alertCount` from the hook, but src/hooks/useDriverAI.ts returns none of them and implements none of this behaviour.
- The new entry's timestamp: the dedupe window is measured from the frame time `now` (src/hooks/useDriverAI.ts:133, 177), but the entry is stamped by a second clock reading (src/hooks/useDriverAI.ts:182). The model carries that second reading as its own input, `Frame.newStamp`, and does not relate it to `now`.
- The attention score is a real number, while the source computes it with IEEE doubles (src/hooks/useDriverSimulation.ts:31-36, src/components/Dashboard.tsx:9-22). The proved bounds ([-15, 100] and the band boundaries at 70 and 40) survive rounding, since clamping and subtracting 15 from values in range stay in range. The ±5 of `NoDropMovesAtMostFive` is exact only over the reals.
- `SessionInfo.ElapsedFields`: its contract speaks only of non-negative differences. For a clock behind the start time the fields are negative, and `BackwardsClockDisplay` shows one such case rather than a general statement.
- `DriverAI.OnFrame`: its own contract states the gate, the stored measurements and the counter. Everything else it does is stated by `DriverAI.Process`, which it calls with the current monitoring flag.

## Findings

| source | as written | input that shows it | evidently intended | confidence | as-written member | corrected member |
|---|---|---|---|---|---|---|
| src/hooks/useDriverAI.ts:129-188 | `onResults` is memoised with an empty dependency list. It therefore keeps the monitoring flag from mount (`false`), and its first line returns on every frame, even after monitoring is switched on. | Switch monitoring on, then deliver any face frame: the as-written handler leaves the counter at 0, where the intended handler counts 1. | The handler reads the current monitoring flag, so frames are processed while monitoring is on. | not executed | `DriverAI.OnFrameAsWritten` (exhibited by `DriverAI.StaleGateIgnoresFrames`) | `DriverAI.OnFrame` |

=== FILE: bounded.dfy ===
/** Bounded newest-first lists: the `[item, ...list].slice(0, cap)` idiom used
    both by the event log (cap 50) and by the simulated alert list (cap 5). */
module Bounded {

  function Min(a: int, b: int): int
  {
    if a <= b then a else b
  }

  /** Puts `x` in front of `s` and keeps the first `cap` elements. */
  function PrependCapped<T>(x: T, s: seq<T>, cap: nat): (r: seq<T>)
    ensures |r| == Min(|s| + 1, cap)
    ensures |r| > 0 ==> r[0] == x
    ensures forall i :: 1 <= i < |r| ==> r[i] == s[i - 1]
  {
    ([x] + s)[..Min(|s| + 1, cap)]
  }

  /** A list already within the cap stays within it. */
  lemma PrependCappedKeepsBound<T>(x: T, s: seq<T>, cap: nat)
    requires |s| <= cap
    ensures |PrependCapped(x, s, cap)| <= cap
  {
  }

  /** On a full list, the newest element enters at the front and exactly the
      last (oldest) element is dropped; everything else keeps its order. */
  lemma PrependCappedEvictsOldest<T>(x: T, s: seq<T>, cap: nat)
    requires cap > 0 && |s| == cap
    ensures PrependCapped(x, s, cap) == [x] + s[..cap - 1]
  {
    var r := PrependCapped(x, s, cap);
    assert |r| == cap;
    forall i | 0 <= i < cap
      ensures r[i] == ([x] + s[..cap - 1])[i]
    {
    }
  }
}

=== FILE: dashboard.dfy ===
/** The attention-score card: the score picks one of three bands (at 70 and
    at 40), and the ring colour, the translucent outer-ring colour, the status
    text and the icon are all chosen by the same two comparisons. */
module Dashboard {

  const FocusedFrom: real := 70.0
  const DistractedFrom: real := 40.0

  datatype Icon = CheckCircle | EyeIcon | AlertTriangle

  /** `getStatusColor`. */
  function StatusColor(score: real): (c: string)
    ensures c == "#22c55e" <==> score >= FocusedFrom
    ensures c == "#eab308" <==> DistractedFrom <= score < FocusedFrom
    ensures c == "#ef4444" <==> score < DistractedFrom
  {
    if score >= FocusedFrom then "#22c55e"
    else if score >= DistractedFrom then "#eab308"
    else "#ef4444"
  }

  /** `getStatusText`. */
  function StatusText(score: real): (t: string)
    ensures t == "Focused" <==> score >= FocusedFrom
    ensures t == "Distracted" <==> DistractedFrom <= score < FocusedFrom
    ensures t == "Drowsy" <==> score < DistractedFrom
  {
    if score >= FocusedFrom then "Focused"
    else if score >= DistractedFrom then "Distracted"
    else "Drowsy"
  }

  /** The outer ring's `rgbaColor`. */
  function RingColor(score: real): (c: string)
    ensures c == "rgba(34, 197, 94, 0.2)" <==> score >= FocusedFrom
    ensures c == "rgba(234, 179, 8, 0.2)" <==> DistractedFrom <= score < FocusedFrom
    ensures c == "rgba(239, 68, 68, 0.2)" <==> score < DistractedFrom
  {
    if score >= FocusedFrom then "rgba(34, 197, 94, 0.2)"
    else if score >= DistractedFrom then "rgba(234, 179, 8, 0.2)"
    else "rgba(239, 68, 68, 0.2)"
  }

  /** The icon next to the status text. */
  function StatusIcon(score: real): (i: Icon)
    ensures i == CheckCircle <==> score >= FocusedFrom
    ensures i == EyeIcon <==> DistractedFrom <= score < FocusedFrom
    ensures i == AlertTriangle <==> score < DistractedFrom
  {
    if score >= FocusedFrom then CheckCircle
    else if score >= DistractedFrom then EyeIcon
    else AlertTriangle
  }

  /** How good a status text is: Drowsy 0, Distracted 1, Focused 2. */
  function TextRank(t: string): nat
  {
    if t == "Focused" then 2 else if t == "Distracted" then 1 else 0
  }

  /** The four presentations agree: two scores get the same colour exactly
      when they get the same ring colour, the same text and the same icon. */
  lemma PresentationsAgree(a: real, b: real)
    ensures StatusColor(a) == StatusColor(b) <==> RingColor(a) == RingColor(b)
    ensures StatusColor(a) == StatusColor(b) <==> StatusText(a) == StatusText(b)
    ensures StatusText(a) == StatusText(b) <==> StatusIcon(a) == StatusIcon(b)
  {
  }

  /** A higher score never shows a worse status. */
  lemma StatusMonotone(a: real, b: real)
    requires a <= b
    ensures TextRank(StatusText(a)) <= TextRank(StatusText(b))
  {
  }
}

=== FILE: driver_ai.dfy ===
/** The per-frame driver-monitoring step of the `useDriverAI` hook: a
    consecutive-frame hysteresis counter on the eye-aperture ratio, a per-frame
    head-velocity test, the status that results, and the newest-first event log
    with its same-type dedupe window and its 50-entry bound.

    The eye-aperture ratio, the head velocity between two nose positions and
    the frame rate are computed from floating-point landmark geometry; here
    they arrive as inputs of each frame.

    The dedupe window is measured from the frame time, while a new entry is
    stamped by a later clock reading; a frame therefore carries both. */
module DriverAI {
  import opened Options
  import Bounded

  const EarThreshold: real := 0.25
  const ConsecutiveFrames: nat := 15
  const RageVelocityThreshold: real := 0.5
  /** A new log entry of the same type as the newest one is dropped when the
      frame time is less than this many milliseconds after it. */
  const LogDedupeMs: int := 3000
  const MaxLogEntries: nat := 50

  datatype Status = Normal | Drowsy | Rage

  datatype EventType = DrowsinessEvent | RageEvent

  datatype Point = Point(x: real, y: real)

  /** An instant as both its millisecond value and its ISO-8601 text; the log
      stores the text and the dedupe rule reads the milliseconds back from it. */
  datatype Timestamp = Timestamp(millis: int, iso: string)

  datatype LogEntry = LogEntry(id: string, timestamp: Timestamp, kind: EventType)

  datatype DriverState = DriverState(
    isDrowsy: bool,
    isRage: bool,
    ear: real,
    fps: int,
    headVelocity: real,
    status: Status)

  /** Everything the hook keeps between frames: the monitoring flag, the
      drowsiness frame counter, the previous nose position, the displayed
      driver state and the event log. */
  datatype Monitor = Monitor(
    monitoring: bool,
    drowsyFrames: nat,
    lastNose: Option<Point>,
    driver: DriverState,
    logs: seq<LogEntry>)

  /** One result of the face tracker. For a face: the nose tip, the measured
      eye-aperture ratio, the head velocity measured against the previous nose
      position (used only when there is one), the rounded frame rate, the frame
      time `now`, and the identifier and creation instant a new log entry would
      receive. */
  datatype Frame =
    | NoFace
    | Face(
        nose: Point,
        ear: real,
        motionVelocity: real,
        fps: int,
        now: int,
        newId: string,
        newStamp: Timestamp)

  /** The state on mount: not monitoring, nothing counted, no nose position,
      an all-zero NORMAL driver state and the log restored from storage. */
  function InitialMonitor(saved: seq<LogEntry>): (m: Monitor)
    ensures !m.monitoring && m.drowsyFrames == 0 && m.lastNose == None
    ensures m.driver.status == Normal && !m.driver.isDrowsy && !m.driver.isRage
    ensures m.driver.ear == 0.0 && m.driver.fps == 0 && m.driver.headVelocity == 0.0
    ensures m.logs == saved
  {
    Monitor(false, 0, None, DriverState(false, false, 0.0, 0, 0.0, Normal), saved)
  }

  /** RAGE wins over DROWSY, which wins over NORMAL. */
  function ResolveStatus(isDrowsy: bool, isRage: bool): (s: Status)
    ensures s == Rage <==> isRage
    ensures s == Drowsy <==> isDrowsy && !isRage
    ensures s == Normal <==> !isDrowsy && !isRage
  {
    if isRage then Rage else if isDrowsy then Drowsy else Normal
  }

  /** The dedupe test: only the newest entry is compared, and it suppresses
      a new entry of its own type for the 3000 ms that follow it. */
  function IsDuplicate(logs: seq<LogEntry>, kind: EventType, now: int): (d: bool)
    ensures d ==> |logs| > 0 && logs[0].kind == kind
    ensures |logs| > 0 && logs[0].kind == kind ==>
      (d <==> now < logs[0].timestamp.millis + LogDedupeMs)
  {
    |logs| > 0 && logs[0].kind == kind && now - logs[0].timestamp.millis < LogDedupeMs
  }

  predicate IdFresh(logs: seq<LogEntry>, id: string)
  {
    forall i :: 0 <= i < |logs| ==> logs[i].id != id
  }

  /** The log update of one alerting frame: unchanged for a duplicate,
      otherwise the new entry in front of the previous entries, cut to 50. */
  function Record(logs: seq<LogEntry>, kind: EventType, now: int, id: string, stamp: Timestamp)
    : (r: seq<LogEntry>)
    ensures IsDuplicate(logs, kind, now) ==> r == logs
    ensures !IsDuplicate(logs, kind, now) ==>
      && |r| == Bounded.Min(|logs| + 1, MaxLogEntries)
      && r[0] == LogEntry(id, stamp, kind)
      && forall i :: 1 <= i < |r| ==> r[i] == logs[i - 1]
    ensures IdFresh(logs, id) ==> (r == logs <==> IsDuplicate(logs, kind, now))
    ensures |logs| <= MaxLogEntries ==> |r| <= MaxLogEntries
  {
    if IsDuplicate(logs, kind, now) then logs
    else Bounded.PrependCapped(LogEntry(id, stamp, kind), logs, MaxLogEntries)
  }

  /** The frame handler with the monitoring gate it reads passed in `gate`.
      A closed gate or a frame without a face changes nothing. */
  function Process(gate: bool, m: Monitor, f: Frame): (r: Monitor)
    ensures !gate || f.NoFace? ==> r == m
    ensures gate && f.Face? ==>
      && r.monitoring == m.monitoring
      && (f.ear < EarThreshold ==> r.drowsyFrames == m.drowsyFrames + 1)
      && (f.ear >= EarThreshold ==> r.drowsyFrames == 0)
      && (r.driver.isDrowsy <==> r.drowsyFrames >= ConsecutiveFrames)
      && (m.lastNose.None? ==> r.driver.headVelocity == 0.0)
      && (m.lastNose.Some? ==> r.driver.headVelocity == f.motionVelocity)
      && (r.driver.isRage <==> r.driver.headVelocity > RageVelocityThreshold)
      && r.driver.status == ResolveStatus(r.driver.isDrowsy, r.driver.isRage)
      && r.driver.ear == f.ear && r.driver.fps == f.fps
      && r.lastNose == Some(f.nose)
      && (!r.driver.isDrowsy && !r.driver.isRage ==> r.logs == m.logs)
      && (r.driver.isDrowsy ==>
            r.logs == Record(m.logs, DrowsinessEvent, f.now, f.newId, f.newStamp))
      && (!r.driver.isDrowsy && r.driver.isRage ==>
            r.logs == Record(m.logs, RageEvent, f.now, f.newId, f.newStamp))
  {
    if !gate then m
    else match f
      case NoFace => m
      case Face(nose, ear, motionVelocity, fps, now, newId, newStamp) =>
        // first frame after mount: record the nose position only
        var velocity := if m.lastNose.None? then 0.0 else motionVelocity;
        var counter := if ear < EarThreshold then m.drowsyFrames + 1 else 0;
        var isDrowsy := counter >= ConsecutiveFrames;
        var isRage := velocity > RageVelocityThreshold;
        var status := ResolveStatus(isDrowsy, isRage);
        var logs :=
          if isDrowsy || isRage then
            Record(m.logs, if isDrowsy then DrowsinessEvent else RageEvent, now, newId, newStamp)
          else m.logs;
        Monitor(m.monitoring, counter, Some(nose),
                DriverState(isDrowsy, isRage, ear, fps, velocity, status), logs)
  }

  /** The frame handler as intended: gated on the current monitoring flag. */
  function OnFrame(m: Monitor, f: Frame): (r: Monitor)
    ensures !m.monitoring ==> r == m
    ensures m.monitoring && f.Face? ==> r.lastNose == Some(f.nose) && r.driver.ear == f.ear
    ensures m.monitoring && f.Face? && f.ear < EarThreshold ==> r.drowsyFrames == m.drowsyFrames + 1
    ensures m.monitoring && f.Face? && f.ear >= EarThreshold ==> r.drowsyFrames == 0
  {
    Process(m.monitoring, m, f)
  }

  /** The monitoring flag the handler was created with. It is memoised with an
      empty dependency list, so it keeps reading the flag's value on mount. */
  const CapturedMonitoring: bool := InitialMonitor([]).monitoring

  /** The frame handler as written: gated on the captured flag. */
  function OnFrameAsWritten(m: Monitor, f: Frame): (r: Monitor)
    ensures r == m
  {
    Process(CapturedMonitoring, m, f)
  }

  /** Flips monitoring and clears the hysteresis; the log, the measurements on
      display and the stored nose position survive. */
  function ToggleMonitoring(m: Monitor): (r: Monitor)
    ensures r.monitoring == !m.monitoring
    ensures r.drowsyFrames == 0
    ensures !r.driver.isDrowsy && !r.driver.isRage && r.driver.status == Normal
    ensures r.driver.ear == m.driver.ear && r.driver.fps == m.driver.fps
    ensures r.driver.headVelocity == m.driver.headVelocity
    ensures r.lastNose == m.lastNose && r.logs == m.logs
  {
    m.(monitoring := !m.monitoring,
       drowsyFrames := 0,
       driver := m.driver.(isDrowsy := false, isRage := false, status := Normal))
  }

  /** Empties the log and touches nothing else. */
  function ClearLogs(m: Monitor): (r: Monitor)
    ensures r.logs == []
    ensures r.monitoring == m.monitoring && r.drowsyFrames == m.drowsyFrames
    ensures r.lastNose == m.lastNose && r.driver == m.driver
  {
    m.(logs := [])
  }

  /** A sequence of frames handled one after another. */
  function Run(m: Monitor, frames: seq<Frame>): Monitor
    decreases |frames|
  {
    if |frames| == 0 then m else Run(OnFrame(m, frames[0]), frames[1..])
  }

  predicate LowEarFaces(frames: seq<Frame>)
  {
    forall i :: 0 <= i < |frames| ==> frames[i].Face? && frames[i].ear < EarThreshold
  }

  /** Hysteresis: every consecutive low-EAR frame adds one to the counter, and
      the driver is drowsy exactly when the run has reached 15 frames. */
  lemma {:induction false} LowEarRunCounts(m: Monitor, frames: seq<Frame>)
    requires m.monitoring
    requires LowEarFaces(frames)
    ensures Run(m, frames).drowsyFrames == m.drowsyFrames + |frames|
    ensures Run(m, frames).monitoring
    ensures |frames| > 0 ==>
      (Run(m, frames).driver.isDrowsy <==> m.drowsyFrames + |frames| >= ConsecutiveFrames)
    decreases |frames|
  {
    if |frames| > 0 {
      var m' := OnFrame(m, frames[0]);
      assert LowEarFaces(frames[1..]) by {
        forall i | 0 <= i < |frames| - 1
          ensures frames[1..][i].Face? && frames[1..][i].ear < EarThreshold
        {
          assert frames[1..][i] == frames[i + 1];
        }
      }
      LowEarRunCounts(m', frames[1..]);
    }
  }

  /** Starting from a reset counter, 14 low-EAR frames leave the driver
      awake and the 15th makes the driver drowsy. */
  lemma FifteenthLowFrameIsDrowsy(m: Monitor, frames: seq<Frame>)
    requires m.monitoring && m.drowsyFrames == 0
    requires LowEarFaces(frames) && |frames| == ConsecutiveFrames
    ensures !Run(m, frames[..ConsecutiveFrames - 1]).driver.isDrowsy
    ensures Run(m, frames).driver.isDrowsy
  {
    assert LowEarFaces(frames[..ConsecutiveFrames - 1]);
    LowEarRunCounts(m, frames[..ConsecutiveFrames - 1]);
    LowEarRunCounts(m, frames);
  }

  /** One open-eyed frame wipes out any accumulated run. */
  lemma OpenEyesReset(m: Monitor, f: Frame)
    requires m.monitoring && f.Face? && f.ear >= EarThreshold
    ensures OnFrame(m, f).drowsyFrames == 0 && !OnFrame(m, f).driver.isDrowsy
  {
  }

  /** Switching monitoring on restarts the hysteresis from nothing, whatever
      was counted before: the k-th following low-EAR frame is drowsy exactly
      when k >= 15. */
  lemma {:induction false} ToggleOnRestartsHysteresis(m: Monitor, frames: seq<Frame>)
    requires !m.monitoring
    requires LowEarFaces(frames) && |frames| > 0
    ensures Run(ToggleMonitoring(m), frames).driver.isDrowsy <==> |frames| >= ConsecutiveFrames
  {
    LowEarRunCounts(ToggleMonitoring(m), frames);
  }

  /** While monitoring is off, no sequence of frames changes anything. */
  lemma {:induction false} PausedRunChangesNothing(m: Monitor, frames: seq<Frame>)
    requires !m.monitoring
    ensures Run(m, frames) == m
    decreases |frames|
  {
    if |frames| > 0 {
      PausedRunChangesNothing(OnFrame(m, frames[0]), frames[1..]);
    }
  }

  /** The 50-entry bound survives any sequence of frames. */
  lemma {:induction false} RunKeepsLogBound(m: Monitor, frames: seq<Frame>)
    requires |m.logs| <= MaxLogEntries
    ensures |Run(m, frames).logs| <= MaxLogEntries
    decreases |frames|
  {
    if |frames| > 0 {
      RunKeepsLogBound(OnFrame(m, frames[0]), frames[1..]);
    }
  }

  /** A frame that is both drowsy and enraged is displayed as RAGE but, unless
      deduplicated, logged as DROWSINESS. */
  lemma LoggedTypeFollowsDrowsiness(m: Monitor, f: Frame)
    requires m.monitoring && f.Face?
    requires OnFrame(m, f).driver.isDrowsy && OnFrame(m, f).driver.isRage
    requires !IsDuplicate(m.logs, DrowsinessEvent, f.now)
    ensures OnFrame(m, f).driver.status == Rage
    ensures OnFrame(m, f).logs[0].kind == DrowsinessEvent
  {
  }

  /** The dedupe looks at the newest entry only: an entry of the other type in
      front lets a new entry through even if an older one of the same type is
      recent. */
  lemma OnlyNewestEntryIsCompared(logs: seq<LogEntry>, kind: EventType, now: int, id: string, stamp: Timestamp)
    requires |logs| > 0 && logs[0].kind != kind
    ensures Record(logs, kind, now, id, stamp)[0] == LogEntry(id, stamp, kind)
    ensures |Record(logs, kind, now, id, stamp)| == Bounded.Min(|logs| + 1, MaxLogEntries)
  {
  }

  /** After clearing, the next alerting frame always gets its entry. */
  lemma ClearedLogAcceptsNext(m: Monitor, kind: EventType, now: int, id: string, stamp: Timestamp)
    ensures Record(ClearLogs(m).logs, kind, now, id, stamp) == [LogEntry(id, stamp, kind)]
  {
  }

  /** A full log drops exactly its oldest entry when a new one arrives. */
  lemma FullLogDropsOldest(logs: seq<LogEntry>, kind: EventType, now: int, id: string, stamp: Timestamp)
    requires |logs| == MaxLogEntries && !IsDuplicate(logs, kind, now)
    ensures Record(logs, kind, now, id, stamp) == [LogEntry(id, stamp, kind)] + logs[..MaxLogEntries - 1]
  {
    Bounded.PrependCappedEvictsOldest(LogEntry(id, stamp, kind), logs, MaxLogEntries);
  }

  /** A well-kept log: within the bound, identifiers distinct, newest first. */
  predicate LogWellFormed(logs: seq<LogEntry>)
  {
    && |logs| <= MaxLogEntries
    && (forall i, j :: 0 <= i < j < |logs| ==> logs[i].id != logs[j].id)
    && (forall i, j :: 0 <= i < j < |logs| ==> logs[i].timestamp.millis >= logs[j].timestamp.millis)
  }

  /** Recording keeps the log well kept when the new identifier is fresh and
      the clock has not gone backwards since the newest entry. */
  lemma RecordKeepsLogWellFormed(logs: seq<LogEntry>, kind: EventType, now: int, id: string, stamp: Timestamp)
    requires LogWellFormed(logs) && IdFresh(logs, id)
    requires |logs| > 0 ==> stamp.millis >= logs[0].timestamp.millis
    ensures LogWellFormed(Record(logs, kind, now, id, stamp))
  {
    var r := Record(logs, kind, now, id, stamp);
    if !IsDuplicate(logs, kind, now) {
      forall i, j | 0 <= i < j < |r|
        ensures r[i].id != r[j].id && r[i].timestamp.millis >= r[j].timestamp.millis
      {
        if i > 0 {
          assert r[i] == logs[i - 1] && r[j] == logs[j - 1];
        } else {
          assert r[j] == logs[j - 1];
          assert logs[0].timestamp.millis >= logs[j - 1].timestamp.millis || j == 1;
        }
      }
    }
  }

  /** The stale gate in the as-written handler: after switching monitoring on,
      a low-EAR frame advances the counter in the intended handler and is
      ignored by the as-written one. */
  lemma StaleGateIgnoresFrames()
    ensures
      var m := ToggleMonitoring(InitialMonitor([]));
      var f := Face(Point(0.5, 0.5), 0.1, 0.0, 30, 1000, "a", Timestamp(1000, "t"));
      OnFrame(m, f).drowsyFrames == 1 && OnFrameAsWritten(m, f).drowsyFrames == 0
  {
  }
}

=== FILE: driver_simulation.dfy ===
/** The simulated attention score of `useDriverSimulation`: once a second the
    score drifts by a random amount, is clamped into [0, 100], occasionally
    drops by 15 after the clamp, and a drop through 30 or 50 raises an alert
    that enters a newest-first list of at most five.

    The two `Math.random()` draws of a tick, the alert identifier and the
    clock reading are inputs. */
module DriverSimulation {
  import opened Options
  import Bounded

  const InitialScore: real := 100.0
  const MaxAlerts: nat := 5
  const DrowsinessLevel: real := 30.0
  const DistractionLevel: real := 50.0
  /** A drop happens when the second draw exceeds this value. */
  const DropChance: real := 0.95
  const DropSize: real := 15.0

  const DrowsinessMessage: string := "Driver drowsiness detected!"
  const DistractionMessage: string := "Driver distraction detected. Please focus."

  datatype AlertType = DrowsinessAlert | DistractionAlert | NormalAlert

  datatype Alert = Alert(id: string, kind: AlertType, message: string, timestamp: int)

  datatype Simulation = Simulation(score: real, alerts: seq<Alert>, monitoring: bool)

  /** The two random draws of one tick, the identifier a new alert would get,
      and the time of the tick. */
  datatype Draws = Draws(fluctuation: real, drop: real, id: string, now: int)

  function InitialSimulation(): (s: Simulation)
    ensures s.score == InitialScore && s.alerts == [] && s.monitoring
  {
    Simulation(InitialScore, [], true)
  }

  /** The alert goes in front; at most five are kept, the survivors in order. */
  function AddAlert(alerts: seq<Alert>, a: Alert): (r: seq<Alert>)
    ensures |r| == Bounded.Min(|alerts| + 1, MaxAlerts)
    ensures r[0] == a
    ensures forall i :: 1 <= i < |r| ==> r[i] == alerts[i - 1]
  {
    Bounded.PrependCapped(a, alerts, MaxAlerts)
  }

  /** A sixth alert evicts the oldest one. */
  lemma SixthAlertEvictsOldest(alerts: seq<Alert>, a: Alert)
    requires |alerts| == MaxAlerts
    ensures AddAlert(alerts, a) == [a] + alerts[..MaxAlerts - 1]
  {
    Bounded.PrependCappedEvictsOldest(a, alerts, MaxAlerts);
  }

  /** `Math.max(0, Math.min(100, x))`. */
  function Clamp(x: real): (r: real)
    ensures 0.0 <= r <= 100.0
    ensures 0.0 <= x <= 100.0 ==> r == x
    ensures x < 0.0 ==> r == 0.0
    ensures x > 100.0 ==> r == 100.0
  {
    var upper := if 100.0 <= x then 100.0 else x;
    if 0.0 >= upper then 0.0 else upper
  }

  /** The new score: drift by `(fluctuation - 0.5) * 10`, clamp, then maybe
      drop by 15. The drop comes after the clamp, so the score can end up as
      low as -15. */
  function NextScore(prev: real, fluctuation: real, drop: real): (s: real)
    ensures -DropSize <= s <= 100.0
    ensures drop > DropChance ==> s == Clamp(prev + (fluctuation - 0.5) * 10.0) - DropSize
    ensures drop <= DropChance ==> s == Clamp(prev + (fluctuation - 0.5) * 10.0)
    ensures drop <= DropChance ==> 0.0 <= s
    ensures drop > DropChance ==> s <= 100.0 - DropSize
    ensures drop <= DropChance && 0.0 <= prev + (fluctuation - 0.5) * 10.0 <= 100.0 ==>
      s == prev + (fluctuation - 0.5) * 10.0
  {
    var change := (fluctuation - 0.5) * 10.0;
    var clamped := Clamp(prev + change);
    if drop > DropChance then clamped - DropSize else clamped
  }

  /** With draws in [0, 1) and no drop, a score in range moves by at most 5. */
  lemma NoDropMovesAtMostFive(prev: real, fluctuation: real, drop: real)
    requires 0.0 <= prev <= 100.0
    requires 0.0 <= fluctuation < 1.0 && drop <= DropChance
    ensures prev - 5.0 <= NextScore(prev, fluctuation, drop) <= prev + 5.0
  {
  }

  /** The crossing rule: a fall through 30 is drowsiness; otherwise a fall
      through 50 is distraction; at most one alert per tick. */
  function CrossingAlert(prev: real, next: real): (a: Option<AlertType>)
    ensures a == Some(DrowsinessAlert) <==> prev >= DrowsinessLevel && next < DrowsinessLevel
    ensures a == Some(DistractionAlert) <==>
      prev >= DistractionLevel && DrowsinessLevel <= next < DistractionLevel
    ensures a != Some(NormalAlert)
  {
    if next < DrowsinessLevel && prev >= DrowsinessLevel then Some(DrowsinessAlert)
    else if next < DistractionLevel && prev >= DistractionLevel then Some(DistractionAlert)
    else None
  }

  /** The text each kind of alert carries; the message tells the kind. */
  function AlertMessage(kind: AlertType): (m: string)
    ensures m == DrowsinessMessage <==> kind == DrowsinessAlert
    ensures m == DistractionMessage <==> kind == DistractionAlert
  {
    match kind
    case DrowsinessAlert => DrowsinessMessage
    case DistractionAlert => DistractionMessage
    case NormalAlert => ""
  }

  /** One interval tick. While monitoring is off no interval runs. */
  function Tick(sim: Simulation, d: Draws): (r: Simulation)
    ensures !sim.monitoring ==> r == sim
    ensures sim.monitoring ==>
      && r.monitoring
      && r.score == NextScore(sim.score, d.fluctuation, d.drop)
      && (CrossingAlert(sim.score, r.score).None? ==> r.alerts == sim.alerts)
      && (CrossingAlert(sim.score, r.score).Some? ==>
            |r.alerts| == Bounded.Min(|sim.alerts| + 1, MaxAlerts)
            && r.alerts[0].kind == CrossingAlert(sim.score, r.score).value
            && r.alerts[0].id == d.id && r.alerts[0].timestamp == d.now
            && r.alerts[0].message == AlertMessage(r.alerts[0].kind)
            && r.alerts[1..] == sim.alerts[..|r.alerts| - 1])
  {
    if !sim.monitoring then sim
    else
      var next := NextScore(sim.score, d.fluctuation, d.drop);
      match CrossingAlert(sim.score, next)
      case None => sim.(score := next)
      case Some(kind) =>
        var alerts := AddAlert(sim.alerts, Alert(d.id, kind, AlertMessage(kind), d.now));
        assert alerts[1..] == sim.alerts[..|alerts| - 1];
        sim.(score := next, alerts := alerts)
  }

  /** `setIsMonitoring`. */
  function SetMonitoring(sim: Simulation, on: bool): (r: Simulation)
    ensures r.monitoring == on && r.score == sim.score && r.alerts == sim.alerts
  {
    sim.(monitoring := on)
  }

  function RunTicks(sim: Simulation, draws: seq<Draws>): Simulation
    decreases |draws|
  {
    if |draws| == 0 then sim else RunTicks(Tick(sim, draws[0]), draws[1..])
  }

  /** The invariant the simulation keeps from its initial state on: the score
      lies in [-15, 100] and at most five alerts are held. */
  predicate SimulationInvariant(sim: Simulation)
  {
    -DropSize <= sim.score <= 100.0 && |sim.alerts| <= MaxAlerts
  }

  lemma InitialSatisfiesInvariant()
    ensures SimulationInvariant(InitialSimulation())
  {
  }

  /** Every sequence of ticks keeps the invariant. */
  lemma {:induction false} RunKeepsInvariant(sim: Simulation, draws: seq<Draws>)
    requires SimulationInvariant(sim)
    ensures SimulationInvariant(RunTicks(sim, draws))
    decreases |draws|
  {
    if |draws| > 0 {
      RunKeepsInvariant(Tick(sim, draws[0]), draws[1..]);
    }
  }

  /** Every sequence of ticks adds at most one alert per tick. */
  lemma {:induction false} RunAddsAtMostOneAlertPerTick(sim: Simulation, draws: seq<Draws>)
    ensures |RunTicks(sim, draws).alerts| <= |sim.alerts| + |draws|
    decreases |draws|
  {
    if |draws| > 0 {
      RunAddsAtMostOneAlertPerTick(Tick(sim, draws[0]), draws[1..]);
    }
  }

  /** The score can go negative: a drop right after a clamp to 0. */
  lemma ScoreCanGoNegative()
    ensures NextScore(0.0, 0.5, 0.99) == -15.0
  {
  }

  /** While monitoring is off, no sequence of ticks changes anything. */
  lemma {:induction false} PausedRunChangesNothing(sim: Simulation, draws: seq<Draws>)
    requires !sim.monitoring
    ensures RunTicks(sim, draws) == sim
    decreases |draws|
  {
    if |draws| > 0 {
      PausedRunChangesNothing(Tick(sim, draws[0]), draws[1..]);
    }
  }
}

=== FILE: log_export.dfy ===
/** The CSV text the event-log table exports: a header line, then one line per
    entry in the log's own newest-first order; fields are comma-joined and
    lines newline-joined, with no quoting, no escaping and no final newline. */
module LogExport {
  import opened Text
  import opened DriverAI

  const Header: seq<string> := ["ID", "Timestamp", "Type"]

  function TypeName(kind: EventType): string
  {
    match kind
    case DrowsinessEvent => "DROWSINESS"
    case RageEvent => "RAGE"
  }

  function Fields(e: LogEntry): seq<string>
  {
    [e.id, e.timestamp.iso, TypeName(e.kind)]
  }

  /** The header row followed by one row of fields per entry. */
  function Table(logs: seq<LogEntry>): (t: seq<seq<string>>)
    ensures |t| == |logs| + 1 && t[0] == Header
    ensures forall i :: 0 <= i < |logs| ==> t[i + 1] == Fields(logs[i])
  {
    [Header] + seq(|logs|, i requires 0 <= i < |logs| => Fields(logs[i]))
  }

  function Row(e: LogEntry): (line: string)
    ensures line == e.id + [','] + e.timestamp.iso + [','] + TypeName(e.kind)
  {
    var f := Fields(e);
    assert Join(f[1..], ',') == e.timestamp.iso + [','] + TypeName(e.kind) by {
      assert f[1..][1..] == [TypeName(e.kind)];
    }
    Join(f, ',')
  }

  /** One comma-joined row per table row: the header line, then entry i on
      line i + 1. */
  function CsvLines(logs: seq<LogEntry>): (lines: seq<string>)
    ensures |lines| == |logs| + 1
    ensures lines[0] == Join(Header, ',')
    ensures forall i :: 0 <= i < |logs| ==> lines[i + 1] == Row(logs[i])
  {
    [Join(Header, ',')] + seq(|logs|, i requires 0 <= i < |logs| => Row(logs[i]))
  }

  lemma HeaderLine()
    ensures Join(Header, ',') == "ID,Timestamp,Type"
    ensures '\n' !in Join(Header, ',')
  {
    assert Join(Header[2..], ',') == "Type";
    assert Join(Header[1..], ',') == "Timestamp" + [','] + "Type";
  }

  /** A character absent from the identifier, the timestamp and the type name
      that is not the comma is absent from the row. */
  lemma RowFreeOf(e: LogEntry, c: char)
    requires c != ',' && c !in e.id && c !in e.timestamp.iso && c !in TypeName(e.kind)
    ensures c !in Row(e)
  {
    var line := Row(e);
    assert multiset(line) == multiset(e.id) + multiset([',']) + multiset(e.timestamp.iso)
      + multiset([',']) + multiset(TypeName(e.kind));
    assert multiset(line)[c] == 0;
  }

  /** The export: the lines joined by newlines. */
  function ToCsv(logs: seq<LogEntry>): (csv: string)
    ensures |logs| == 0 ==> csv == "ID,Timestamp,Type"
    ensures |csv| >= 17 && csv[..17] == "ID,Timestamp,Type"
  {
    HeaderLine();
    Join(CsvLines(logs), '\n')
  }

  /** The reading side: split into lines on newlines, each line on commas. */
  function ParseCsv(text: string): seq<seq<string>>
  {
    var lines := Split(text, '\n');
    seq(|lines|, i requires 0 <= i < |lines| => Split(lines[i], ','))
  }

  predicate FieldsFreeOf(logs: seq<LogEntry>, c: char)
  {
    forall i :: 0 <= i < |logs| ==> c !in logs[i].id && c !in logs[i].timestamp.iso
  }

  /** Without newlines inside fields the export has exactly one line for the
      header and one per entry, in the log's order. */
  lemma CsvLineStructure(logs: seq<LogEntry>)
    requires FieldsFreeOf(logs, '\n')
    ensures Split(ToCsv(logs), '\n') == CsvLines(logs)
    ensures |Split(ToCsv(logs), '\n')| == |logs| + 1
  {
    LinesFreeOfNewline(logs);
    SplitJoin(CsvLines(logs), '\n');
  }

  lemma LinesFreeOfNewline(logs: seq<LogEntry>)
    requires FieldsFreeOf(logs, '\n')
    ensures forall i :: 0 <= i < |CsvLines(logs)| ==> '\n' !in CsvLines(logs)[i]
  {
    var lines := CsvLines(logs);
    forall i | 0 <= i < |lines|
      ensures '\n' !in lines[i]
    {
      if i > 0 {
        RowFreeOf(logs[i - 1], '\n');
      } else {
        HeaderLine();
      }
    }
  }

  /** The first line is the header, whatever the fields hold. */
  lemma CsvFirstLineIsHeader(logs: seq<LogEntry>)
    ensures Split(ToCsv(logs), '\n')[0] == "ID,Timestamp,Type"
  {
    HeaderLine();
    var lines := CsvLines(logs);
    var hdr := "ID,Timestamp,Type";
    if |logs| == 0 {
      SplitFree(hdr, '\n');
    } else {
      assert ToCsv(logs) == hdr + ['\n'] + Join(lines[1..], '\n');
      SplitPrefix(hdr, Join(lines[1..], '\n'), '\n');
    }
  }

  lemma HeaderRoundTrip()
    ensures Split(Join(Header, ','), ',') == Header
  {
    SplitJoin(Header, ',');
  }

  /** Each row reads back as its entry's three fields when neither the
      identifier nor the timestamp holds a comma. */
  lemma RowRoundTrip(e: LogEntry)
    requires ',' !in e.id && ',' !in e.timestamp.iso
    ensures Split(Row(e), ',') == Fields(e)
  {
    assert ',' !in TypeName(e.kind);
    SplitJoin(Fields(e), ',');
  }

  /** Round trip: when no identifier or timestamp contains a comma or a
      newline, reading the export back yields the header and every entry's
      fields, in order. */
  lemma CsvRoundTrip(logs: seq<LogEntry>)
    requires FieldsFreeOf(logs, '\n') && FieldsFreeOf(logs, ',')
    ensures ParseCsv(ToCsv(logs)) == Table(logs)
  {
    CsvLineStructure(logs);
    var lines := CsvLines(logs);
    var table := Table(logs);
    var parsed := ParseCsv(ToCsv(logs));
    assert |parsed| == |table|;
    forall i | 0 <= i < |table|
      ensures parsed[i] == table[i]
    {
      assert parsed[i] == Split(lines[i], ',');
      if i == 0 {
        HeaderRoundTrip();
      } else {
        RowRoundTrip(logs[i - 1]);
      }
    }
  }

  /** No quoting: an identifier holding a comma makes its row read back as
      more than three fields. */
  lemma CommaInIdBreaksRow(logs: seq<LogEntry>, i: nat)
    requires i < |logs| && ',' in logs[i].id
    ensures |Split(CsvLines(logs)[i + 1], ',')| > 3
  {
    var e := logs[i];
    var line := CsvLines(logs)[i + 1];
    assert line == e.id + [','] + e.timestamp.iso + [','] + TypeName(e.kind);
    assert multiset(line) == multiset(e.id) + multiset([',']) + multiset(e.timestamp.iso)
      + multiset([',']) + multiset(TypeName(e.kind));
    assert multiset(line)[','] >= multiset(e.id)[','] + 2;
    SplitCount(line, ',');
  }

  /** With comma- and newline-free fields, the export holds exactly one
      newline per entry and exactly two commas per line. */
  lemma CsvSeparatorCounts(logs: seq<LogEntry>)
    requires FieldsFreeOf(logs, '\n') && FieldsFreeOf(logs, ',')
    ensures multiset(ToCsv(logs))['\n'] == |logs|
    ensures forall i :: 0 <= i < |logs| + 1 ==> multiset(CsvLines(logs)[i])[','] == 2
  {
    CsvLineStructure(logs);
    SplitCount(ToCsv(logs), '\n');
    var lines := CsvLines(logs);
    forall i | 0 <= i < |lines|
      ensures multiset(lines[i])[','] == 2
    {
      SplitCount(lines[i], ',');
      if i == 0 {
        HeaderRoundTrip();
      } else {
        RowRoundTrip(logs[i - 1]);
      }
    }
  }
}

=== FILE: options.dfy ===
/** The optional-value datatype shared by the models: an absent nose position,
    an absent session start time, a tick that raises no alert. */
module Options {

  datatype Option<+T> = None | Some(value: T)
}

=== FILE: session_info.dfy ===
/** The session timer: the milliseconds since the session start split into
    hours, minutes and seconds with floor division and JavaScript's `%`, each
    rendered with `toString().padStart(2, '0')` and joined by colons. Without
    a start time the display is "00:00:00". The clock reading of each
    one-second interval tick is an input. */
module SessionInfo {
  import opened Text
  import opened Options

  const MsPerSecond: int := 1000
  const MsPerMinute: int := 60000
  const MsPerHour: int := 3600000
  const ZeroDisplay: string := "00:00:00"

  /** JavaScript's `%` on integers: the remainder takes the sign of the
      dividend (Dafny's `%` never returns a negative value). */
  function JsRem(n: int, d: int): (r: int)
    requires d > 0
    ensures n >= 0 ==> r == n % d
    ensures n < 0 ==> -d < r <= 0
    ensures n < 0 ==> r == n + d * ((-n) / d)
  {
    if n >= 0 then n % d else -((-n) % d)
  }

  datatype Elapsed = Elapsed(hours: int, minutes: int, seconds: int)

  /** `Math.floor(diff / 3600000)`, `Math.floor((diff % 3600000) / 60000)`
      and `Math.floor((diff % 60000) / 1000)`; for a positive divisor Dafny's
      `/` is floor division. For a non-negative difference the fields are a
      mixed-radix reading of the whole seconds elapsed. */
  function ElapsedFields(diff: int): (e: Elapsed)
    ensures diff >= 0 ==> 0 <= e.hours && 0 <= e.minutes < 60 && 0 <= e.seconds < 60
    ensures diff >= 0 ==> e.hours * 3600 + e.minutes * 60 + e.seconds == diff / MsPerSecond
  {
    var e := Elapsed(diff / MsPerHour, JsRem(diff, MsPerHour) / MsPerMinute,
                     JsRem(diff, MsPerMinute) / MsPerSecond);
    MixedRadix(diff);
    e
  }

  lemma MixedRadix(diff: int)
    ensures diff >= 0 ==>
      (diff / MsPerHour) * 3600 + ((diff % MsPerHour) / MsPerMinute) * 60
      + (diff % MsPerMinute) / MsPerSecond == diff / MsPerSecond
  {
    if diff >= 0 {
      MinutesOf(diff);
      SecondsOf(diff);
    }
  }

  /** Whole minutes: sixty per whole hour plus the minutes of the hour's
      remainder. */
  lemma MinutesOf(n: int)
    requires n >= 0
    ensures n / 60000 == 60 * (n / 3600000) + (n % 3600000) / 60000
  {
  }

  /** Whole seconds: sixty per whole minute plus the seconds of the minute's
      remainder. */
  lemma SecondsOf(n: int)
    requires n >= 0
    ensures n / 1000 == 60 * (n / 60000) + (n % 60000) / 1000
  {
  }

  /** `n.toString().padStart(2, '0')`. A non-negative number becomes a digit
      string of at least two characters, three or more from 100 on, that
      reads back as the number. */
  function Pad2(n: int): (r: string)
    ensures |r| >= 2
    ensures n >= 0 ==> AllDigits(r) && ParseNat(r) == n
    ensures 0 <= n < 100 ==> |r| == 2
    ensures n >= 100 ==> |r| >= 3
    ensures 0 <= n < 10 ==> r == ['0'] + NatToString(n)
    ensures n >= 10 ==> r == NatToString(n)
    ensures n < 0 ==> r == IntToString(n)
  {
    var r := PadStart(IntToString(n), 2, '0');
    if n >= 0 then
      var s := NatToString(n);
      PadStartIsFill(s, 2, '0');
      NatToStringDigits(n);
      ParseNatLeadingZeros(if |s| >= 2 then 0 else 2 - |s|, s);
      ParseNatToString(n);
      NatToStringWidth(n);
      r
    else r
  }

  /** The three fields, each padded. */
  function ClockFields(e: Elapsed): seq<string>
  {
    PadEach([e.hours, e.minutes, e.seconds])
  }

  /** `Pad2` applied to every number, in order. */
  function PadEach(ns: seq<int>): (r: seq<string>)
    ensures |r| == |ns|
    decreases |ns|
  {
    if |ns| == 0 then [] else PadEach(ns[..|ns| - 1]) + [Pad2(ns[|ns| - 1])]
  }

  /** The padded fields with a colon between neighbours. */
  function ClockText(e: Elapsed): string
  {
    Join(ClockFields(e), ':')
  }

  /** The displayed text. Read back, it gives the whole seconds elapsed. */
  function FormatElapsed(diff: int): (r: string)
    ensures diff >= 0 ==> ReadClock(r) == Some(diff / MsPerSecond)
  {
    var e := ElapsedFields(diff);
    if diff >= 0 then
      ReadClockText(e);
      ClockText(e)
    else ClockText(e)
  }

  /** Reads a display back into whole seconds: three non-empty digit groups
      separated by colons. */
  function ReadClock(text: string): Option<int>
  {
    ReadGroups(Split(text, ':'))
  }

  function ReadGroups(parts: seq<string>): Option<int>
  {
    if |parts| == 3 && ReadNat(parts[0]).Some? && ReadNat(parts[1]).Some?
       && ReadNat(parts[2]).Some? then
      Some(ReadNat(parts[0]).value * 3600 + ReadNat(parts[1]).value * 60
           + ReadNat(parts[2]).value)
    else None
  }

  /** A padded non-negative number is a colon-free group that reads back as
      the number. */
  lemma Pad2Reads(n: int)
    requires n >= 0
    ensures GroupOf(Pad2(n), n)
  {
    ReadNatParse(Pad2(n));
    DigitsExclude(Pad2(n), ':');
  }

  /** A colon-free group that reads back as `n`: exactly two digits below
      100, three or more from 100 on. */
  predicate GroupOf(g: string, n: int)
  {
    ReadNat(g) == Some(n) && ':' !in g && |g| >= 2
    && (n < 100 ==> |g| == 2) && (n >= 100 ==> |g| >= 3)
  }

  /** Every padded non-negative number is a group of its number. */
  lemma {:induction false} PadEachReads(ns: seq<int>)
    requires forall i :: 0 <= i < |ns| ==> ns[i] >= 0
    ensures forall i :: 0 <= i < |ns| ==> GroupOf(PadEach(ns)[i], ns[i])
    decreases |ns|
  {
    if |ns| > 0 {
      var p := ns[..|ns| - 1];
      PadEachReads(p);
      Pad2Reads(ns[|ns| - 1]);
      forall i | 0 <= i < |ns|
        ensures GroupOf(PadEach(ns)[i], ns[i])
      {
        if i < |p| {
          assert PadEach(ns)[i] == PadEach(p)[i] && ns[i] == p[i];
        } else {
          assert PadEach(ns)[i] == Pad2(ns[|ns| - 1]);
        }
      }
    }
  }

  /** The padded fields of non-negative numbers are the colon-separated
      groups of the text. */
  lemma ClockPieces(e: Elapsed)
    requires e.hours >= 0 && e.minutes >= 0 && e.seconds >= 0
    ensures Split(ClockText(e), ':') == ClockFields(e)
  {
    PadEachReads([e.hours, e.minutes, e.seconds]);
    SplitJoin(ClockFields(e), ':');
  }

  /** The padded fields of non-negative numbers read back as the seconds
      they denote. */
  lemma ReadFields(e: Elapsed)
    requires e.hours >= 0 && e.minutes >= 0 && e.seconds >= 0
    ensures ReadGroups(ClockFields(e)) == Some(e.hours * 3600 + e.minutes * 60 + e.seconds)
  {
    PadEachReads([e.hours, e.minutes, e.seconds]);
  }

  /** Reading back a clock text of non-negative fields gives its seconds. */
  lemma ReadClockText(e: Elapsed)
    requires e.hours >= 0 && e.minutes >= 0 && e.seconds >= 0
    ensures ReadClock(ClockText(e)) == Some(e.hours * 3600 + e.minutes * 60 + e.seconds)
  {
    ClockPieces(e);
    ReadFields(e);
  }

  /** The display always has two colons and fields of at least two digits;
      hours from 100 on take three or more digits. */
  lemma FormatShape(diff: int)
    requires diff >= 0
    ensures multiset(FormatElapsed(diff))[':'] == 2
    ensures |Split(FormatElapsed(diff), ':')| == 3
    ensures forall i :: 0 <= i < 3 ==> |Split(FormatElapsed(diff), ':')[i]| >= 2
    ensures diff >= 100 * MsPerHour ==> |Split(FormatElapsed(diff), ':')[0]| >= 3
  {
    var e := ElapsedFields(diff);
    ClockPieces(e);
    SplitCount(FormatElapsed(diff), ':');
    PadEachReads([e.hours, e.minutes, e.seconds]);
    if diff >= 100 * MsPerHour {
      assert e.hours >= 100;
    }
  }

  /** The three groups of the display are the hours, then the minutes and the
      seconds as exactly two digits each, both below 60. */
  lemma FormatGroups(diff: int)
    requires diff >= 0
    ensures |Split(FormatElapsed(diff), ':')| == 3
    ensures ReadNat(Split(FormatElapsed(diff), ':')[0]) == Some(diff / MsPerHour)
    ensures ReadNat(Split(FormatElapsed(diff), ':')[1]) == Some((diff % MsPerHour) / MsPerMinute)
    ensures ReadNat(Split(FormatElapsed(diff), ':')[2]) == Some((diff % MsPerMinute) / MsPerSecond)
    ensures |Split(FormatElapsed(diff), ':')[1]| == 2 && (diff % MsPerHour) / MsPerMinute < 60
    ensures |Split(FormatElapsed(diff), ':')[2]| == 2 && (diff % MsPerMinute) / MsPerSecond < 60
    ensures diff < 100 * MsPerHour ==> |Split(FormatElapsed(diff), ':')[0]| == 2
  {
    var e := ElapsedFields(diff);
    ClockPieces(e);
    PadEachReads([e.hours, e.minutes, e.seconds]);
  }

  /** The first second of a session displays as zero. */
  lemma FirstSecondShowsZero(diff: int)
    requires 0 <= diff < MsPerSecond
    ensures FormatElapsed(diff) == ZeroDisplay
  {
    var e := ElapsedFields(diff);
    assert e == Elapsed(0, 0, 0);
    assert Pad2(0) == "00";
    assert PadEach([0, 0, 0]) == PadEach([0, 0]) + ["00"];
    assert PadEach([0, 0]) == PadEach([0]) + ["00"];
    assert ClockFields(e) == ["00", "00", "00"];
  }

  /** A clock running behind the start time gives negative fields, which
      `padStart` leaves unpadded. */
  lemma BackwardsClockDisplay(diff: int)
    requires -MsPerSecond < diff < 0
    ensures FormatElapsed(diff) == "-1:-1:-1"
  {
    assert JsRem(diff, MsPerHour) == diff;
    assert JsRem(diff, MsPerMinute) == diff;
    var e := ElapsedFields(diff);
    assert e == Elapsed(-1, -1, -1);
    assert Pad2(-1) == "-1";
    assert PadEach([-1, -1, -1]) == PadEach([-1, -1]) + ["-1"];
    assert PadEach([-1, -1]) == PadEach([-1]) + ["-1"];
    assert ClockFields(e) == ["-1", "-1", "-1"];
  }

  /** The component's state: the start time it was given and the text shown. */
  datatype Timer = Timer(startTime: Option<int>, elapsed: string)

  /** JavaScript truthiness of the start time: absent and 0 are both falsy. */
  predicate Started(startTime: Option<int>)
  {
    startTime.Some? && startTime.value != 0
  }

  function InitialTimer(startTime: Option<int>): (t: Timer)
    ensures t.startTime == startTime && t.elapsed == ZeroDisplay
  {
    Timer(startTime, ZeroDisplay)
  }

  /** The effect run when the start time changes: without a start time the
      display is reset to zero; with one, the old text stays until the first
      interval tick. */
  function SetStartTime(t: Timer, startTime: Option<int>): (r: Timer)
    ensures r.startTime == startTime
    ensures !Started(startTime) ==> r.elapsed == ZeroDisplay
    ensures Started(startTime) ==> r.elapsed == t.elapsed
  {
    if !Started(startTime) then Timer(startTime, ZeroDisplay) else Timer(startTime, t.elapsed)
  }

  /** One interval tick at clock reading `now`; no interval runs without a
      start time. */
  function Tick(t: Timer, now: int): (r: Timer)
    ensures !Started(t.startTime) ==> r == t
    ensures r.startTime == t.startTime
  {
    if !Started(t.startTime) then t
    else t.(elapsed := FormatElapsed(now - t.startTime.value))
  }

  /** A tick of a started timer shows the whole seconds since the start. */
  lemma TickShowsWholeSeconds(t: Timer, now: int)
    requires Started(t.startTime) && now >= t.startTime.value
    ensures ReadClock(Tick(t, now).elapsed) == Some((now - t.startTime.value) / MsPerSecond)
  {
  }

  /** A timer without a start time shows zero, and keeps showing it through
      any number of ticks. */
  lemma {:induction false} StoppedTimerShowsZero(t: Timer, startTime: Option<int>, nows: seq<int>)
    requires !Started(startTime)
    ensures Ticks(SetStartTime(t, startTime), nows).elapsed == ZeroDisplay
    decreases |nows|
  {
    if |nows| > 0 {
      StoppedTimerShowsZero(Tick(SetStartTime(t, startTime), nows[0]), startTime, nows[1..]);
    }
  }

  function Ticks(t: Timer, nows: seq<int>): Timer
    decreases |nows|
  {
    if |nows| == 0 then t else Ticks(Tick(t, nows[0]), nows[1..])
  }
}

=== FILE: text.dfy ===
/** Character-sequence helpers with JavaScript's meaning: `Array.prototype.join`
    and `String.prototype.split` on a one-character separator, the decimal
    rendering of integers by `Number.prototype.toString`, and
    `String.prototype.padStart`. */
module Text {
  import opened Options

  /** `parts.join(sep)`: the separator between neighbours; no parts give "". */
  function Join(parts: seq<string>, sep: char): string
  {
    if |parts| == 0 then ""
    else if |parts| == 1 then parts[0]
    else parts[0] + [sep] + Join(parts[1..], sep)
  }

  /** `s.split(sep)`: the maximal separator-free pieces, in order. Like the
      JavaScript original, the empty string splits into one empty piece and a
      separator at either end yields an empty piece there. */
  function Split(s: string, sep: char): (r: seq<string>)
    ensures |r| > 0
    decreases |s|
  {
    if |s| == 0 then [""]
    else
      var rest := Split(s[1..], sep);
      if s[0] == sep then [""] + rest
      else [[s[0]] + rest[0]] + rest[1..]
  }

  /** One more piece than there are separators. */
  lemma {:induction false} SplitCount(s: string, sep: char)
    ensures |Split(s, sep)| == multiset(s)[sep] + 1
    decreases |s|
  {
    if |s| > 0 {
      SplitCount(s[1..], sep);
      assert s == [s[0]] + s[1..];
    }
  }

  /** No piece contains the separator. */
  lemma {:induction false} SplitPiecesFree(s: string, sep: char)
    ensures forall i :: 0 <= i < |Split(s, sep)| ==> sep !in Split(s, sep)[i]
    decreases |s|
  {
    if |s| > 0 {
      SplitPiecesFree(s[1..], sep);
    }
  }

  /** Joining the pieces of a split gives back the original text. */
  lemma {:induction false} JoinSplit(s: string, sep: char)
    ensures Join(Split(s, sep), sep) == s
    decreases |s|
  {
    if |s| > 0 {
      var rest := Split(s[1..], sep);
      JoinSplit(s[1..], sep);
      if s[0] == sep {
        assert Split(s, sep) == [""] + rest;
        assert ([""] + rest)[1..] == rest;
      } else {
        assert Split(s, sep) == [[s[0]] + rest[0]] + rest[1..];
        if |rest| > 1 {
          assert ([[s[0]] + rest[0]] + rest[1..])[1..] == rest[1..];
        }
      }
    }
  }

  /** A separator-free text splits into itself. */
  lemma {:induction false} SplitFree(a: string, sep: char)
    requires sep !in a
    ensures Split(a, sep) == [a]
    decreases |a|
  {
    if |a| > 0 {
      SplitFree(a[1..], sep);
      assert [a[0]] + a[1..] == a;
    }
  }

  /** A separator-free prefix followed by a separator is the first piece. */
  lemma {:induction false} SplitPrefix(a: string, t: string, sep: char)
    requires sep !in a
    ensures Split(a + [sep] + t, sep) == [a] + Split(t, sep)
    decreases |a|
  {
    var s := a + [sep] + t;
    if |a| == 0 {
      assert s[1..] == t;
    } else {
      assert s[1..] == a[1..] + [sep] + t;
      SplitPrefix(a[1..], t, sep);
      assert [a[0]] + a[1..] == a;
    }
  }

  /** Splitting a join recovers the parts, provided none of them contains the
      separator (otherwise a part would break into several pieces). */
  lemma {:induction false} SplitJoin(parts: seq<string>, sep: char)
    requires |parts| > 0
    requires forall i :: 0 <= i < |parts| ==> sep !in parts[i]
    ensures Split(Join(parts, sep), sep) == parts
    decreases |parts|
  {
    if |parts| == 1 {
      SplitFree(parts[0], sep);
    } else {
      SplitPrefix(parts[0], Join(parts[1..], sep), sep);
      SplitJoin(parts[1..], sep);
      assert [parts[0]] + parts[1..] == parts;
    }
  }

  predicate IsDigit(c: char)
  {
    '0' <= c <= '9'
  }

  predicate AllDigits(s: string)
  {
    forall i :: 0 <= i < |s| ==> IsDigit(s[i])
  }

  /** Digit strings hold no separator that is not a digit. */
  lemma DigitsExclude(s: string, c: char)
    requires AllDigits(s) && !IsDigit(c)
    ensures c !in s
  {
    assert forall k :: 0 <= k < |s| ==> s[k] != c;
  }

  function DigitChar(d: nat): (c: char)
    requires d < 10
    ensures IsDigit(c)
  {
    "0123456789"[d]
  }

  function DigitValue(c: char): (d: int)
    ensures IsDigit(c) ==> 0 <= d < 10
  {
    (c as int) - ('0' as int)
  }

  /** The decimal digits of `n`, most significant first, without leading zeros. */
  function NatToString(n: nat): (r: string)
    ensures |r| > 0
  {
    if n < 10 then [DigitChar(n)] else NatToString(n / 10) + [DigitChar(n % 10)]
  }

  lemma {:induction false} NatToStringDigits(n: nat)
    ensures AllDigits(NatToString(n))
  {
    if n >= 10 {
      NatToStringDigits(n / 10);
    }
  }

  /** `n.toString()` for an integer-valued number (below the exponent range). */
  function IntToString(n: int): string
  {
    if n < 0 then "-" + NatToString(-n) else NatToString(n)
  }

  /** The value of a digit string; the empty string reads as 0. Callers
      check `AllDigits` first; other characters count by their distance
      from '0'. */
  function ParseNat(s: string): int
  {
    if |s| == 0 then 0 else ParseNat(s[..|s| - 1]) * 10 + DigitValue(s[|s| - 1])
  }

  /** The value of a non-empty digit string, or `None` when the string is
      empty or holds anything but digits. */
  function ReadNat(s: string): Option<int>
    decreases |s|
  {
    if |s| == 0 || !IsDigit(s[|s| - 1]) then None
    else if |s| == 1 then Some(DigitValue(s[0]))
    else match ReadNat(s[..|s| - 1])
      case None => None
      case Some(v) => Some(v * 10 + DigitValue(s[|s| - 1]))
  }

  /** `ReadNat` accepts exactly the non-empty digit strings, and reads them as
      `ParseNat` does. */
  lemma {:induction false} ReadNatParse(s: string)
    ensures ReadNat(s).Some? <==> |s| > 0 && AllDigits(s)
    ensures ReadNat(s).Some? ==> ReadNat(s).value == ParseNat(s)
    decreases |s|
  {
    if |s| > 1 {
      var p := s[..|s| - 1];
      ReadNatParse(p);
      assert AllDigits(s) <==> AllDigits(p) && IsDigit(s[|s| - 1]) by {
        assert forall i :: 0 <= i < |p| ==> p[i] == s[i];
      }
    } else if |s| == 1 {
      assert ParseNat(s[..0]) == 0;
    }
  }

  /** Reading back the decimal rendering of a number gives the number. */
  lemma {:induction false} ParseNatToString(n: nat)
    ensures ParseNat(NatToString(n)) == n
  {
    if n >= 10 {
      var r := NatToString(n);
      ParseNatToString(n / 10);
      assert r[..|r| - 1] == NatToString(n / 10);
      assert DigitValue(r[|r| - 1]) == n % 10;
    }
  }

  /** Numbers of three or more digits render with three or more characters. */
  lemma NatToStringWidth(n: nat)
    ensures n < 10 ==> |NatToString(n)| == 1
    ensures 10 <= n < 100 ==> |NatToString(n)| == 2
    ensures n >= 100 ==> |NatToString(n)| >= 3
  {
    if n >= 100 {
      assert |NatToString(n)| == |NatToString(n / 10)| + 1;
      assert |NatToString(n / 10)| == |NatToString(n / 100)| + 1;
    }
  }

  /** Leading zeros do not change the value of a digit string. */
  lemma {:induction false} ParseNatLeadingZeros(z: nat, s: string)
    requires AllDigits(s)
    ensures AllDigits(Fill('0', z) + s)
    ensures ParseNat(Fill('0', z) + s) == ParseNat(s)
    decreases z, |s|
  {
    if z > 0 {
      if |s| == 0 {
        var t := Fill('0', z) + s;
        ParseNatLeadingZeros(z - 1, s);
        assert t == Fill('0', z);
        assert t[..|t| - 1] == Fill('0', z - 1) + s;
        assert DigitValue(t[|t| - 1]) == 0;
        assert ParseNat(t) == ParseNat(Fill('0', z - 1) + s) * 10;
      } else {
        var t := Fill('0', z) + s;
        ParseNatLeadingZeros(z, s[..|s| - 1]);
        assert t[..|t| - 1] == Fill('0', z) + s[..|s| - 1];
        assert t[|t| - 1] == s[|s| - 1];
        assert ParseNat(t) == ParseNat(Fill('0', z) + s[..|s| - 1]) * 10 + DigitValue(s[|s| - 1]);
      }
    } else {
      assert Fill('0', z) + s == s;
    }
  }

  /** `k` copies of `c`. */
  function Fill(c: char, k: nat): (r: string)
    ensures |r| == k && forall i :: 0 <= i < k ==> r[i] == c
  {
    seq(k, _ => c)
  }

  /** `s.padStart(width, fill)` for a one-character `fill`: the fill character
      goes in front until the string is `width` long; a string already that
      long is returned as it is. */
  function PadStart(s: string, width: nat, fill: char): (r: string)
    ensures |r| == if |s| >= width then |s| else width
    decreases width - |s|
  {
    if |s| >= width then s else PadStart([fill] + s, width, fill)
  }

  /** The padding is a run of fill characters in front of the string. */
  lemma {:induction false} PadStartIsFill(s: string, width: nat, fill: char)
    ensures PadStart(s, width, fill) == Fill(fill, if |s| >= width then 0 else width - |s|) + s
    decreases width - |s|
  {
    if |s| < width {
      PadStartIsFill([fill] + s, width, fill);
      assert Fill(fill, width - |s| - 1) + ([fill] + s) == Fill(fill, width - |s|) + s;
    } else {
      assert Fill(fill, 0) + s == s;
    }
  }
}
